=== FILE: README.md ===
# Per-service state container — a Dafny model

This project models the state container of the dolos browser extension
(`State` and `cacheInStateMemory` in `src/common/state.ts`). One container
exists per supported streaming service. It holds:

- the currently active service page, if any;
- a `memory` map used by the memoisation decorator;
- the list of elements injected into the host page.

It also translates the response envelope of the remote metadata service
("grobber") into values or typed errors.

The model is functional. `State` is an immutable record. Every operation is a
pure function. It takes the settled outcomes of the collaborators it awaits as
inputs: a page's `unload`/`load`, the store's configuration read, the HTTP
transport. It returns the new state, the side effects it caused in order (an
event trace), and whether its promise fulfils or rejects.

Modules:

- `Wrappers` (`wrappers.dfy`): `Option`, `Result`, `Outcome`.
- `ServiceState` (`state.dfy`): the record and the lifecycle operations
  `New`, `Injected`, `RemoveInjected`, `Reload` and `LoadPage`.
- `Lifecycle` (`lifecycle.dfy`): arbitrary sequences of lifecycle calls. It
  proves two facts about every such run. The state's page is always the page
  the trace last activated. A page is never replaced without being unloaded
  immediately before.
- `Gateway` (`gateway.dfy`): `request`, `searchAnime` and `getEpisode`.
- `Memo` (`memo.dfy`): the decorator's key derivation and its closure state.
  It also holds the two-phase memoised call: `Call`, then `Settle` when the
  result settles.

Memory objects have identity in the source. `reload` replaces `this.memory`
with a new object. A memoised call captures the object it saw. The model
therefore keeps every map `reload` replaced in `retired`, indexed by
generation. A pending write names the generation it targets. A write that
settles after a `reload` lands in the retired map and never in the fresh one.

Decorated methods are invoked with no arguments (`func.apply(this)`), so a
memoised call is modelled as a key plus the value the method would return.

## Behaviour the model follows from the code

- An overlapping pair of memo misses for one key both invoke the method. The
  write is an unconditional assignment, so the result that settles LAST stays
  in the cache, not the first one (`Memo.OverlappingMissesLastWriteWins`).
- `searchAnime` reads the configuration once before its `try` (line 61). A
  rejection there propagates. Only failures inside `request` become `null`.
- A rejected `unload` makes `loadPage` reject before `this.page` is replaced.
  The old page stays referenced and no new page is loaded. In `reload` the
  elements are already removed and the memory is already replaced by then.
- A failed `load` is logged and swallowed. The new page stays active.

## Model

| member | source | states |
|---|---|---|
| ServiceState.New | src/common/state.ts:14-20 | a new container has the given service id, no page, an empty memory and no injected elements |
| ServiceState.Injected | src/common/state.ts:26-28 | the element is appended at the end of the injected list; page, memory and service id are unchanged |
| ServiceState.Removals | src/common/state.ts:31 | one `remove` per element, at the same position as the element |
| ServiceState.RemoveInjected | src/common/state.ts:30-33 | every tracked element gets `remove` in insertion order, the list ends empty, nothing else changes, the call cannot fail |
| ServiceState.RemovalsCountMatches | src/common/state.ts:31 | each element is removed exactly as many times as it was tracked |
| ServiceState.RemoveInjectedIdempotent | src/common/state.ts:30-33 | a second `removeInjected` emits nothing and leaves the state as the first one did |
| ServiceState.InjectedThenRemoved | src/common/state.ts:26-33 | an element injected last is removed last, after every earlier one |
| ServiceState.LoadPage | src/common/state.ts:41-46 | the old page is unloaded before the switch; a rejected unload rejects the call, keeps the old page and loads nothing; otherwise the new page is active whatever `load` does; `load` runs exactly when a page is given; a load failure is logged, never propagated; the trace holds exactly the unload, the switch, the load and the failure log, in that order, and nothing else; memory, injected list and service id are untouched |
| ServiceState.Reload | src/common/state.ts:35-39 | the injected list and the memory end empty and the old map is retired; all removals precede the unload of the old page; on success the container is idle; it rejects exactly when the old page's unload rejects, with that unload's reason, and then still refers to that page; after the unload the trace holds only the final switch to no page; nothing is loaded |
| Lifecycle.LoadPageDisciplined | src/common/state.ts:41-46 | one `loadPage` never activates a page while another is active without unloading it first, and ends on the page it activated |
| Lifecycle.StepDisciplined | src/common/state.ts:26-46 | the same holds for each single call: inject, removeInjected, reload, loadPage |
| Lifecycle.RunDisciplined | src/common/state.ts:35-46 | for every sequence of calls and every collaborator outcome, the service id never changes, the state's page is the one the trace last activated, and every page replaced was unloaded immediately before |
| Lifecycle.RunRetiresOnePerReload | src/common/state.ts:35-46 | over any sequence of calls, each `reload` retires exactly one map and earlier retired maps are untouched; with no reload the memory is unchanged, otherwise the first map retired is the one the run started with |
| Lifecycle.TwoPagesThenReload | src/common/state.ts:14-46 | loading `a`, then `b`, then reloading: `a` is unloaded before `b` is activated and loaded; the container ends idle with empty memory and no elements |
| Gateway.Request | src/common/state.ts:49-58 | the GET goes to `grobberUrl + endpoint` with the given params; configuration and transport failures propagate unchanged; a falsy `success` gives an error carrying exactly the body's msg, code and name; it succeeds exactly for a truthy envelope and then returns the body unchanged |
| Gateway.Truthy | src/common/state.ts:55 | only a present `true` passes; `false` and a missing field are falsy |
| Gateway.FailureEnvelopeRoundTrip | src/common/state.ts:55 | a failure envelope with any msg, code and name is translated into the error carrying exactly those three |
| Gateway.SearchParams | src/common/state.ts:65-69 | the search sends exactly `anime`, `language` and `dubbed`, taken from the query and the configuration |
| Gateway.SearchAnime | src/common/state.ts:60-76 | it rejects only when the configuration read before the try rejects; every request failure becomes `null` and is logged; otherwise it returns the body's `anime` list in the order the service gave it |
| Gateway.EpisodeParams | src/common/state.ts:83 | the episode lookup sends exactly `uid` and `episode` |
| Gateway.GetEpisode | src/common/state.ts:82-85 | every request failure propagates with the same error; a success yields the episode built from the returned body |
| Gateway.SearchSwallowsWhatEpisodePropagates | src/common/state.ts:60-85 | for the same failing request, `searchAnime` resolves to `null` while `getEpisode` rejects with that error |
| Memo.MemoKey | src/common/state.ts:94 | the key is the explicit key name unless it is absent or empty; otherwise it is the class name, a '-', then the method name |
| Memo.DerivedKeyInjective | src/common/state.ts:94 | for identifier class names (no '-'), distinct methods never derive the same key |
| Memo.Decorate | src/common/state.ts:92-94 | applying a decorator resolves the key and stores it back in the decorator's captured key name |
| Memo.DecoratorReuseSharesKey | src/common/state.ts:94 | a decorator applied to a second method reuses the key it resolved for the first |
| Memo.Current | src/common/state.ts:99 | the reference a call captures designates the map the state currently holds |
| Memo.Call | src/common/state.ts:98-110 | a call hits exactly when the key is in the current memory and then returns the stored value without invoking the method; a miss invokes it once, returns its value and schedules a write under the key into the map captured at call time |
| Memo.Settle | src/common/state.ts:107-109 | a fulfilled result is written under the key into the captured map and into no other map; a rejected one is logged and changes nothing |
| Memo.MissSettleThenHit | src/common/state.ts:101-109 | after a miss settles successfully, the memory gains exactly that key with that value and the next call hits with it |
| Memo.RejectedSettleRecomputes | src/common/state.ts:103-109 | after a miss settles with a rejection, the key is still absent and the next call invokes the method again |
| Memo.OverlappingMissesLastWriteWins | src/common/state.ts:107-108 | two misses for one key both invoke the method; the value settled last is the one cached |
| Memo.StaleWriteIsolated | src/common/state.ts:98-108 | a write targeting a map the state no longer holds leaves the current memory unchanged |
| Memo.WriteAcrossReloadLandsInDiscardedMap | src/common/state.ts:99-108 | a miss that settles after `reload` writes into the retired map; the fresh memory stays empty and the next call recomputes |
| Memo.WriteAfterRunWithReloadIsolated | src/common/state.ts:99-108 | a miss that settles after any sequence of calls containing a `reload` (line 37), such as `reload` then `loadPage`, writes into the map the call saw, now retired; the current memory is untouched and later calls behave as if the write never happened |
| Memo.InAsWritten | src/common/state.ts:101 | JavaScript's `in` on an object literal: an own key or one of the twelve names inherited from `Object.prototype` |
| Memo.InheritedKeyHitsEmptyMemory | src/common/state.ts:101 | as written, the key "toString" counts as present in an empty memory, while the own-key test misses |
| Memo.DerivedKeyNeverInherited | src/common/state.ts:94-101 | a derived key never names an inherited object member, so only explicit key names are exposed to the finding below |
| Memo.EmptyMemoryAlwaysMisses | src/common/state.ts:101-104 | with the own-key test, a fresh container misses on every key and returns the method's value |

## Findings

| source | as written | input that shows it | evidently intended | confidence | as-written member | corrected member |
|---|---|---|---|---|---|---|
| src/common/state.ts:101 | `keyName in memory` uses the JavaScript `in` operator, which also sees members inherited from `Object.prototype` | explicit key name "toString" on an empty memory: the call hits, the method is never invoked, and the inherited built-in function is returned | a test of the memory's own keys (`hasOwnProperty`) | not executed; high, since `in` consults the prototype chain | Memo.InheritedKeyHitsEmptyMemory | Memo.EmptyMemoryAlwaysMisses |

The as-written test is `Memo.InAsWritten`. The rest of the model uses the
own-key test inside `Memo.Call`.

## Left out

- The `config` getter and `getAnimeInfo` (lines 22-24 and 78-80) only delegate to the store. The store is foreign I/O. Its configuration read appears as a `Result<Config, Error>` input.
- The axios transport is an input `Result<Body, Error>`. Response bodies other than an object are not modelled. A `null` body would make line 55 throw a TypeError. A `success` field that is neither a boolean nor absent is not modelled either.
- Gateway.SearchAnime: `null` (a request failure) and `undefined` (a body without `anime`) are both `None`.
- Gateway.EpisodeParams: the episode index is a JavaScript `number`, modelled as an `int`; fractional, infinite and NaN indices are not modelled. The value is passed through unchanged, so no property depends on it.
- Gateway.Request: the envelope's `code` is a JavaScript value (a `number` at best), modelled as an optional `int`; fractional, NaN and non-numeric codes are not modelled. It is passed through unchanged, so no property depends on it.
- `episodeFromResp` and the internals of `GrobberResponseError` are opaque constructors (`EpisodeFromResp`, `GrobberResponseError`).
- `console.error` is modelled only as a trace event or a `logged` field. The logged arguments are not modelled. A failed `load` is logged asynchronously; the trace places the log right after `Load`.
- `Element.remove()` is modelled as the event `Remove`. Its DOM effect is not modelled.
- The decorator's sync-or-promise return shape (lines 96, 105 and 112) is not modelled. This includes the `returnPromise` flag shared by all calls. It also includes the TypeError line 105 raises when the wrapped method returns `null` or `undefined`. `Settle` takes the settled value as an input.
- Memo.Call: uses the own-key test `key in s.memory`. The source's `in` at line 101 also hits on the twelve names inherited from `Object.prototype`; that as-written behaviour is modelled separately, see Findings.
- Memo.Call: always returns `Miss` with a pending write on a miss. A wrapped method that throws synchronously at line 104 propagates its exception and schedules no write; that path is not modelled.
- Memo: the key "__proto__" behaves specially as a property write in JavaScript. That behaviour is not modelled; such a write is treated like any other key.
- Overlapping `loadPage`/`reload` calls and any interleaving of microtasks beyond the call/settle split are not modelled. Each lifecycle call is atomic given its collaborators' outcomes. The source has no mutual exclusion, so overlapping calls are the caller's responsibility.
- `src/popup/Popup.tsx` is presentation (React, routing, extension messaging) and is not part of this model.

=== FILE: gateway.dfy ===
/**
  The request gateway of the container (`request`, `searchAnime`, `getEpisode`):
  one GET to the remote metadata service and the translation of its response
  envelope into a value or a typed error. The configuration read and the HTTP
  transport are collaborators whose settled outcomes are inputs.
 */
module Gateway {
  import opened Wrappers

  /** The configuration record the store provides. */
  datatype Config = Config(grobberUrl: string, language: string, dubbed: bool)

  /** One search hit, kept opaque. */
  datatype SearchResult = SearchResult(uid: string)

  /**
    A parsed response body. `success`, `msg`, `code`, `name` and `anime` are the
    envelope fields the core reads; `None` stands for an absent field. Other
    payload fields are kept as `fields`.
   */
  datatype Body = Body(
    success: Option<bool>,
    msg: Option<string>,
    code: Option<int>,
    name: Option<string>,
    anime: Option<seq<SearchResult>>,
    fields: map<string, string>)

  /** Errors a call can reject with. */
  datatype Error =
    | ConfigError(reason: string)        // the store's configuration read rejected
    | TransportError(reason: string)     // the HTTP call rejected
    | GrobberResponseError(msg: Option<string>, code: Option<int>, name: Option<string>)

  /** A query-string parameter value. */
  datatype Param = Text(text: string) | Flag(flag: bool) | Number(number: int)

  /** The outbound GET: full URL and query parameters. */
  datatype HttpGet = HttpGet(url: string, params: map<string, Param>)

  /** What a call sent (if it got that far) and how its promise settled. */
  datatype Exchange<T> = Exchange(sent: Option<HttpGet>, result: Result<T, Error>)

  /** What `searchAnime` sent, the failure it logged, and its settled result. */
  datatype SearchOutcome = SearchOutcome(
    sent: Option<HttpGet>,
    logged: Option<Error>,
    result: Result<Option<seq<SearchResult>>, Error>)

  /** An episode built from a response body; its construction is kept opaque. */
  datatype Episode = EpisodeFromResp(resp: Body)

  const SearchEndpoint := "/anime/search/"
  const EpisodeEndpoint := "/anime/episode/"

  /** JavaScript truthiness of the `success` field: only a present `true` passes. */
  predicate Truthy(success: Option<bool>)
  {
    success == Some(true)
  }

  /**
    `request(endpoint, params)`: read the configuration, GET
    `grobberUrl + endpoint`, and return the body unless its `success` is falsy.
   */
  function Request(config: Result<Config, Error>, endpoint: string, params: map<string, Param>,
                   transport: Result<Body, Error>): (x: Exchange<Body>)
    // a failed configuration read propagates and nothing is sent
    ensures config.Failure? ==> x.sent == None && x.result == Failure(config.error)
    ensures config.Success? ==> x.sent == Some(HttpGet(config.value.grobberUrl + endpoint, params))
    // a transport failure propagates unchanged
    ensures config.Success? && transport.Failure? ==> x.result == Failure(transport.error)
    // a falsy envelope becomes an error carrying exactly its msg, code and name
    ensures config.Success? && transport.Success? && !Truthy(transport.value.success) ==>
      x.result == Failure(GrobberResponseError(transport.value.msg, transport.value.code, transport.value.name))
    // success only for a truthy envelope, and then the body is returned unchanged
    ensures x.result.Success? <==> config.Success? && transport.Success? && Truthy(transport.value.success)
    ensures x.result.Success? ==> x.result.value == transport.value
  {
    match config
    case Failure(e) => Exchange(None, Failure(e))
    case Success(c) =>
      var sent := Some(HttpGet(c.grobberUrl + endpoint, params));
      match transport
      case Failure(e) => Exchange(sent, Failure(e))
      case Success(body) =>
        if !Truthy(body.success) then
          Exchange(sent, Failure(GrobberResponseError(body.msg, body.code, body.name)))
        else
          Exchange(sent, Success(body))
  }

  /** The body the remote service sends to report a failure. */
  function FailureEnvelope(msg: Option<string>, code: Option<int>, name: Option<string>): Body
  {
    Body(Some(false), msg, code, name, None, map[])
  }

  /**
    Every failure the service reports survives translation intact: the error
    `request` raises is exactly the one the envelope described.
   */
  lemma FailureEnvelopeRoundTrip(c: Config, endpoint: string, params: map<string, Param>,
                                 msg: Option<string>, code: Option<int>, name: Option<string>)
    ensures Request(Success(c), endpoint, params, Success(FailureEnvelope(msg, code, name))).result
         == Failure(GrobberResponseError(msg, code, name))
  {
  }

  /** The query parameters of a search, drawn from the configuration. */
  function SearchParams(query: string, c: Config): (ps: map<string, Param>)
    ensures ps.Keys == {"anime", "language", "dubbed"}
    ensures ps["anime"] == Text(query) && ps["language"] == Text(c.language) && ps["dubbed"] == Flag(c.dubbed)
  {
    map["anime" := Text(query), "language" := Text(c.language), "dubbed" := Flag(c.dubbed)]
  }

  /**
    `searchAnime(query)`: read the configuration (outside the `try`), then
    `request` the search endpoint (which reads the configuration again); any
    failure of the request is logged and turned into `null`.
   */
  function SearchAnime(outer: Result<Config, Error>, query: string, inner: Result<Config, Error>,
                       transport: Result<Body, Error>): (x: SearchOutcome)
    // only the first configuration read, outside the try, can make it reject
    ensures x.result.Failure? <==> outer.Failure?
    ensures outer.Failure? ==> x.result == Failure(outer.error) && x.sent == None && x.logged == None
    ensures outer.Success? ==>
      var req := Request(inner, SearchEndpoint, SearchParams(query, outer.value), transport);
      && x.sent == req.sent
      // every request failure becomes null, and is logged
      && (req.result.Failure? ==> x.result == Success(None) && x.logged == Some(req.result.error))
      // otherwise the anime list of the body, in the order the service gave it
      && (req.result.Success? ==> x.result == Success(transport.value.anime) && x.logged == None)
  {
    match outer
    case Failure(e) => SearchOutcome(None, None, Failure(e))
    case Success(c) =>
      var req := Request(inner, SearchEndpoint, SearchParams(query, c), transport);
      match req.result
      case Failure(e) => SearchOutcome(req.sent, Some(e), Success(None))
      case Success(body) => SearchOutcome(req.sent, None, Success(body.anime))
  }

  /** The query parameters of an episode lookup. */
  function EpisodeParams(uid: string, index: int): (ps: map<string, Param>)
    ensures ps.Keys == {"uid", "episode"}
    ensures ps["uid"] == Text(uid) && ps["episode"] == Number(index)
  {
    map["uid" := Text(uid), "episode" := Number(index)]
  }

  /** `getEpisode(uid, index)`: `request` the episode endpoint; failures propagate. */
  function GetEpisode(config: Result<Config, Error>, uid: string, index: int,
                      transport: Result<Body, Error>): (x: Exchange<Episode>)
    ensures var req := Request(config, EpisodeEndpoint, EpisodeParams(uid, index), transport);
      && x.sent == req.sent
      && (req.result.Failure? ==> x.result == Failure(req.result.error))
      && (req.result.Success? ==> x.result == Success(EpisodeFromResp(transport.value)))
  {
    var req := Request(config, EpisodeEndpoint, EpisodeParams(uid, index), transport);
    match req.result
    case Failure(e) => Exchange(req.sent, Failure(e))
    case Success(body) => Exchange(req.sent, Success(EpisodeFromResp(body)))
  }

  /**
    The two failure policies side by side: for the same failing request,
    `searchAnime` resolves to `null` while `getEpisode` rejects with the
    request's own error.
   */
  lemma SearchSwallowsWhatEpisodePropagates(c: Config, query: string, uid: string, index: int, e: Error)
    ensures SearchAnime(Success(c), query, Success(c), Failure(e)).result == Success(None)
    ensures GetEpisode(Success(c), uid, index, Failure(e)).result == Failure(e)
  {
  }
}

=== FILE: lifecycle.dfy ===
/**
  Runs of the container's lifecycle operations. Each call is atomic given the
  outcomes of the collaborators it awaits (overlapping calls are a caller
  responsibility in the source). Over any run, the page reference the state
  holds is the one the trace last activated, and a page is never replaced
  without being unloaded first.
 */
module Lifecycle {
  import opened Wrappers
  import opened ServiceState

  /** One call on the container, with the outcomes of the collaborators it awaits. */
  datatype Command =
    | Inject(elem: Elem)
    | RemoveAll
    | ReloadCall(unload: Outcome<Reason>)
    | LoadPageCall(page: Option<Page>, unload: Outcome<Reason>, load: Outcome<Reason>)

  /** The transition one call makes. */
  function Step<V>(s: State<V>, c: Command): Transition<V>
  {
    match c
    case Inject(e) => Transition(Injected(s, e), [], Pass)
    case RemoveAll => RemoveInjected(s)
    case ReloadCall(u) => Reload(s, u)
    case LoadPageCall(p, u, l) => LoadPage(s, p, u, l)
  }

  /** The final state and the whole side-effect trace of a sequence of calls. */
  datatype RunResult<V> = RunResult(state: State<V>, trace: seq<Event>)

  function Run<V>(s: State<V>, cmds: seq<Command>): RunResult<V>
    decreases |cmds|
  {
    if cmds == [] then RunResult(s, [])
    else
      var t := Step(s, cmds[0]);
      var rest := Run(t.state, cmds[1..]);
      RunResult(rest.state, t.trace + rest.trace)
  }

  /** How many of the calls are `reload`. */
  function Reloads(cmds: seq<Command>): nat
    decreases |cmds|
  {
    if cmds == [] then 0
    else (if cmds[0].ReloadCall? then 1 else 0) + Reloads(cmds[1..])
  }

  /** The page a trace leaves active, starting from `init`: its last `Activate`. */
  function ActiveAfter(init: Option<Page>, trace: seq<Event>): Option<Page>
    decreases |trace|
  {
    if trace == [] then init
    else if trace[|trace| - 1].Activate? then trace[|trace| - 1].active
    else ActiveAfter(init, trace[..|trace| - 1])
  }

  /**
    Every `Activate` that replaces an active page `q` comes right after
    `Unload(q)`: no two pages are ever active together.
   */
  predicate UnloadsBeforeSwitch(init: Option<Page>, trace: seq<Event>)
    decreases |trace|
  {
    if trace == [] then true
    else
      var front := trace[..|trace| - 1];
      var prev := ActiveAfter(init, front);
      && UnloadsBeforeSwitch(init, front)
      && (trace[|trace| - 1].Activate? && prev.Some? ==>
            |trace| >= 2 && trace[|trace| - 2] == Unload(prev.value))
  }

  /** No event of the trace switches the page. */
  predicate NoSwitch(trace: seq<Event>)
  {
    forall i :: 0 <= i < |trace| ==> !trace[i].Activate?
  }

  /** A trace that never switches keeps the starting page and trivially keeps the discipline. */
  lemma {:induction false} NoSwitchKeepsPage(init: Option<Page>, trace: seq<Event>)
    requires NoSwitch(trace)
    ensures ActiveAfter(init, trace) == init
    ensures UnloadsBeforeSwitch(init, trace)
    decreases |trace|
  {
    if trace != [] {
      NoSwitchKeepsPage(init, trace[..|trace| - 1]);
    }
  }

  /** The page after two traces is the page after the second, starting from the page after the first. */
  lemma {:induction false} ActiveAfterAppend(init: Option<Page>, t1: seq<Event>, t2: seq<Event>)
    ensures ActiveAfter(init, t1 + t2) == ActiveAfter(ActiveAfter(init, t1), t2)
    decreases |t2|
  {
    if t2 != [] {
      assert (t1 + t2)[..|t1 + t2| - 1] == t1 + t2[..|t2| - 1];
      ActiveAfterAppend(init, t1, t2[..|t2| - 1]);
    } else {
      assert t1 + t2 == t1;
    }
  }

  /** Two disciplined traces, the second starting where the first ends, make a disciplined whole. */
  lemma {:induction false} UnloadsBeforeSwitchAppend(init: Option<Page>, t1: seq<Event>, t2: seq<Event>)
    requires UnloadsBeforeSwitch(init, t1)
    requires UnloadsBeforeSwitch(ActiveAfter(init, t1), t2)
    ensures UnloadsBeforeSwitch(init, t1 + t2)
    decreases |t2|
  {
    if t2 == [] {
      assert t1 + t2 == t1;
    } else {
      var front := t2[..|t2| - 1];
      assert (t1 + t2)[..|t1 + t2| - 1] == t1 + front;
      UnloadsBeforeSwitchAppend(init, t1, front);
      ActiveAfterAppend(init, t1, front);
    }
  }

  /** The trace of one `loadPage` call keeps the discipline and ends on the state's page. */
  lemma LoadPageDisciplined<V>(s: State<V>, page: Option<Page>, unload: Outcome<Reason>, load: Outcome<Reason>)
    ensures var t := LoadPage(s, page, unload, load);
      ActiveAfter(s.page, t.trace) == t.state.page && UnloadsBeforeSwitch(s.page, t.trace)
  {
    var t := LoadPage(s, page, unload, load);
    var before := if s.page.Some? then [Unload(s.page.value)] else [];
    if s.page.Some? && unload.Fail? {
      NoSwitchKeepsPage(s.page, t.trace);
    } else {
      var started := match page
        case None => []
        case Some(p) => [Load(p)] + (if load.Fail? then [LoadFailureLogged(p, load.error)] else []);
      assert t.trace == before + [Activate(page)] + started;
      var head := before + [Activate(page)];
      assert ActiveAfter(s.page, head) == page by {
        assert head[..|head| - 1] == before;
      }
      assert UnloadsBeforeSwitch(s.page, head) by {
        NoSwitchKeepsPage(s.page, before);
        assert head[..|head| - 1] == before;
      }
      assert NoSwitch(started);
      NoSwitchKeepsPage(page, started);
      ActiveAfterAppend(s.page, head, started);
      UnloadsBeforeSwitchAppend(s.page, head, started);
    }
  }

  /** Each single call keeps the service id, ends on the page its trace activated, and unloads before switching. */
  lemma StepDisciplined<V>(s: State<V>, c: Command)
    ensures var t := Step(s, c);
      && t.state.serviceId == s.serviceId
      && ActiveAfter(s.page, t.trace) == t.state.page
      && UnloadsBeforeSwitch(s.page, t.trace)
  {
    var t := Step(s, c);
    match c
    case Inject(e) =>
      NoSwitchKeepsPage(s.page, t.trace);
    case RemoveAll =>
      NoSwitchKeepsPage(s.page, t.trace);
    case ReloadCall(u) =>
      var removed := RemoveInjected(s);
      var cleared := removed.state.(memory := map[], retired := s.retired + [s.memory]);
      LoadPageDisciplined(cleared, None, u, Pass);
      NoSwitchKeepsPage(s.page, removed.trace);
      ActiveAfterAppend(s.page, removed.trace, LoadPage(cleared, None, u, Pass).trace);
      UnloadsBeforeSwitchAppend(s.page, removed.trace, LoadPage(cleared, None, u, Pass).trace);
    case LoadPageCall(p, u, l) =>
      LoadPageDisciplined(s, p, u, l);
  }

  /**
    For every sequence of calls and every collaborator outcome: the service id
    never changes, the state's page is the one the trace last activated, and
    every page replaced was unloaded immediately before.
   */
  lemma {:induction false} RunDisciplined<V>(s: State<V>, cmds: seq<Command>)
    ensures Run(s, cmds).state.serviceId == s.serviceId
    ensures ActiveAfter(s.page, Run(s, cmds).trace) == Run(s, cmds).state.page
    ensures UnloadsBeforeSwitch(s.page, Run(s, cmds).trace)
    decreases |cmds|
  {
    if cmds != [] {
      var t := Step(s, cmds[0]);
      StepDisciplined(s, cmds[0]);
      RunDisciplined(t.state, cmds[1..]);
      ActiveAfterAppend(s.page, t.trace, Run(t.state, cmds[1..]).trace);
      UnloadsBeforeSwitchAppend(s.page, t.trace, Run(t.state, cmds[1..]).trace);
    }
  }

  /**
    Two pages loaded one after the other, then a reload: `a` is unloaded
    before `b` is activated and loaded, and the container ends idle and empty.
   */
  lemma TwoPagesThenReload<V>(a: Page, b: Page)
    ensures var s0 := New<V>("svc1");
      var t1 := LoadPage(s0, Some(a), Pass, Pass);
      var t2 := LoadPage(t1.state, Some(b), Pass, Pass);
      var t3 := Reload(t2.state, Pass);
      && t1.state.page == Some(a) && t1.trace == [Activate(Some(a)), Load(a)]
      && t2.state.page == Some(b) && t2.trace == [Unload(a), Activate(Some(b)), Load(b)]
      && t3.state.page == None && t3.state.memory == map[] && t3.state.injected == []
      && t3.trace == [Unload(b), Activate(None)]
  {
  }

  /**
    Over any run, each `reload` retires exactly one map and earlier retired maps
    are never touched. Only `reload` replaces the memory: with no reload it is
    unchanged, otherwise the first map retired is the one the run started with.
   */
  lemma {:induction false} RunRetiresOnePerReload<V>(s: State<V>, cmds: seq<Command>)
    ensures |Run(s, cmds).state.retired| == |s.retired| + Reloads(cmds)
    ensures Run(s, cmds).state.retired[..|s.retired|] == s.retired
    ensures Reloads(cmds) == 0 ==> Run(s, cmds).state.memory == s.memory
    ensures Reloads(cmds) > 0 ==> Run(s, cmds).state.retired[|s.retired|] == s.memory
    decreases |cmds|
  {
    if cmds != [] {
      var t := Step(s, cmds[0]);
      RunRetiresOnePerReload(t.state, cmds[1..]);
      var r := Run(t.state, cmds[1..]).state;
      if cmds[0].ReloadCall? {
        assert t.state.retired == s.retired + [s.memory];
        assert r.retired[..|t.state.retired|] == t.state.retired;
        assert r.retired[|s.retired|] == r.retired[..|t.state.retired|][|s.retired|];
        assert r.retired[..|s.retired|] == r.retired[..|t.state.retired|][..|s.retired|];
      } else {
        assert t.state.retired == s.retired && t.state.memory == s.memory;
      }
    }
  }
}

=== FILE: memo.dfy ===
/**
  The `cacheInStateMemory` decorator: key derivation, the decorator's closure
  state, and the two-phase memoised call. A call either hits the container's
  memory or invokes the wrapped method once and schedules a write; the write
  happens when the result settles, into the memory object captured at call
  time.
 */
module Memo {
  import opened Wrappers
  import opened ServiceState
  import opened Lifecycle

  /** True when `s` holds no '-', as for every JavaScript identifier. */
  predicate NoDash(s: string)
  {
    forall i :: 0 <= i < |s| ==> s[i] != '-'
  }

  /**
    The memory key: an explicit `keyName` unless it is absent or the (falsy)
    empty string, otherwise `ClassName-methodName`.
   */
  function MemoKey(keyName: Option<string>, className: string, methodName: string): (k: string)
    ensures keyName.Some? && keyName.value != "" ==> k == keyName.value
    ensures keyName.None? || keyName.value == "" ==>
      |k| == |className| + 1 + |methodName|
      && k[..|className|] == className && k[|className|] == '-' && k[|className| + 1..] == methodName
  {
    if keyName.Some? && keyName.value != "" then keyName.value else className + "-" + methodName
  }

  /** Derived keys of distinct methods never collide. */
  lemma DerivedKeyInjective(c1: string, m1: string, c2: string, m2: string)
    requires NoDash(c1) && NoDash(c2)
    requires MemoKey(None, c1, m1) == MemoKey(None, c2, m2)
    ensures c1 == c2 && m1 == m2
  {
  }

  /**
    The closure of one `cacheInStateMemory(keyName)` call. Applying it to a
    method overwrites the captured `keyName` with the key it resolved.
   */
  datatype Decorator = Decorator(keyName: Option<string>)

  /** Applies a decorator to one method: resolves its key and captures it for any later application. */
  function Decorate(d: Decorator, className: string, methodName: string): (r: (Decorator, string))
    ensures r.1 == MemoKey(d.keyName, className, methodName)
    ensures r.1 != ""
    ensures r.0.keyName == Some(r.1)
  {
    var k := MemoKey(d.keyName, className, methodName);
    (Decorator(Some(k)), k)
  }

  /** A decorator reused on a second method keeps the key it resolved for the first. */
  lemma DecoratorReuseSharesKey(d: Decorator, c1: string, m1: string, c2: string, m2: string)
    ensures Decorate(Decorate(d, c1, m1).0, c2, m2).1 == Decorate(d, c1, m1).1
  {
  }

  /** Which memory object a write goes to: the one of generation `generation`. */
  datatype MemRef = MemRef(generation: nat)

  /** The memory object the state refers to right now. */
  function Current<V>(s: State<V>): (r: MemRef)
    ensures MemoryAt(s, r) == Some(s.memory)
  {
    MemRef(|s.retired|)
  }

  /** The map object a reference designates: a retired one or the current one. */
  function MemoryAt<V>(s: State<V>, r: MemRef): Option<map<string, V>>
  {
    if r.generation < |s.retired| then Some(s.retired[r.generation])
    else if r.generation == |s.retired| then Some(s.memory)
    else None
  }

  /** The write a miss schedules: `memory[key] = value` once the result settles. */
  datatype Pending = Pending(target: MemRef, key: string)

  /** A hit returns the stored value; a miss invoked the wrapped method exactly once. */
  datatype CallResult<V> = Hit(value: V) | Miss(value: V, pending: Pending)

  /**
    One call of a decorated method whose body would return `computed`. Nothing
    is written yet, even for a plain value: the write is deferred.
   */
  function Call<V>(s: State<V>, key: string, computed: V): (c: CallResult<V>)
    ensures c.Hit? <==> key in s.memory
    ensures c.Hit? ==> c.value == s.memory[key]
    ensures c.Miss? ==> c.value == computed && c.pending == Pending(Current(s), key)
  {
    if key in s.memory then Hit(s.memory[key]) else Miss(computed, Pending(Current(s), key))
  }

  /** The state after a scheduled write settles, and the failure logged if it rejected. */
  datatype Settled<V> = Settled(state: State<V>, logged: Option<Reason>)

  /**
    The settlement of a miss: a fulfilled result is written under the key into
    the captured map object, a rejected one is only logged.
   */
  function Settle<V>(s: State<V>, p: Pending, outcome: Result<V, Reason>): (r: Settled<V>)
    ensures r.state.serviceId == s.serviceId && r.state.page == s.page && r.state.injected == s.injected
    ensures |r.state.retired| == |s.retired|
    ensures outcome.Failure? ==> r.state == s && r.logged == Some(outcome.error)
    ensures outcome.Success? ==> r.logged == None
    // the write lands in the captured object and nowhere else
    ensures outcome.Success? && MemoryAt(s, p.target).Some? ==>
      MemoryAt(r.state, p.target) == Some(MemoryAt(s, p.target).value[p.key := outcome.value])
    ensures forall g :: g != p.target.generation ==> MemoryAt(r.state, MemRef(g)) == MemoryAt(s, MemRef(g))
  {
    match outcome
    case Failure(e) => Settled(s, Some(e))
    case Success(v) =>
      var g := p.target.generation;
      if g < |s.retired| then
        Settled(s.(retired := s.retired[g := s.retired[g][p.key := v]]), None)
      else if g == |s.retired| then
        Settled(s.(memory := s.memory[p.key := v]), None)
      else
        Settled(s, None)
  }

  /** A successful miss fills the cache: the next call hits with that value and writes nothing else. */
  lemma MissSettleThenHit<V>(s: State<V>, key: string, computed: V, next: V)
    requires key !in s.memory
    ensures var c := Call(s, key, computed);
      var s' := Settle(s, c.pending, Success(computed)).state;
      && s'.memory == s.memory[key := computed]
      && Call(s', key, next) == Hit(computed)
  {
  }

  /** A rejected result leaves the key absent, so the next call invokes the method again. */
  lemma RejectedSettleRecomputes<V>(s: State<V>, key: string, computed: V, reason: Reason, next: V)
    requires key !in s.memory
    ensures var c := Call(s, key, computed);
      var s' := Settle(s, c.pending, Failure(reason)).state;
      Call(s', key, next) == Miss(next, Pending(Current(s), key))
  {
  }

  /**
    Two calls that both missed before either settled each invoke the method;
    the write that settles last is the one the cache keeps.
   */
  lemma OverlappingMissesLastWriteWins<V>(s: State<V>, key: string, first: V, second: V)
    requires key !in s.memory
    ensures var c1 := Call(s, key, first);
      var c2 := Call(s, key, second);
      && c1.Miss? && c2.Miss?
      && Settle(Settle(s, c1.pending, Success(first)).state, c2.pending, Success(second)).state.memory[key] == second
  {
  }

  /** A write into a map object the state no longer refers to never reaches the current one. */
  lemma StaleWriteIsolated<V>(s: State<V>, p: Pending, outcome: Result<V, Reason>)
    requires p.target != Current(s)
    ensures Settle(s, p, outcome).state.memory == s.memory
  {
  }

  /**
    A call that missed before `reload`, settling after it, writes into the
    discarded map: the fresh memory stays empty and the next call recomputes.
   */
  lemma WriteAcrossReloadLandsInDiscardedMap<V>(s: State<V>, key: string, computed: V, unload: Outcome<Reason>, next: V)
    requires key !in s.memory
    ensures var c := Call(s, key, computed);
      var r := Reload(s, unload).state;
      var s' := Settle(r, c.pending, Success(computed)).state;
      && s'.memory == map[]
      && s'.retired[|s.retired|] == s.memory[key := computed]
      && Call(s', key, next).Miss?
  {
    var c := Call(s, key, computed);
    var r := Reload(s, unload).state;
    assert c.pending.target.generation == |s.retired| < |r.retired|;
  }

  /**
    A call that missed, settling after ANY sequence of lifecycle calls that
    includes a `reload` (for instance `reload` followed by `loadPage`), writes
    into the map retired by the first of those reloads, which is the map the
    call saw. The container's current memory is untouched.
   */
  lemma WriteAfterRunWithReloadIsolated<V>(s: State<V>, key: string, computed: V, cmds: seq<Command>, v: V)
    requires key !in s.memory
    requires Reloads(cmds) > 0
    ensures var c := Call(s, key, computed);
      var r := Run(s, cmds).state;
      var s' := Settle(r, c.pending, Success(v)).state;
      && s'.memory == r.memory
      && |s'.retired| > |s.retired|
      && s'.retired[|s.retired|] == s.memory[key := v]
      && Call(s', key, computed) == Call(r, key, computed)
  {
    RunRetiresOnePerReload(s, cmds);
  }

  // ---------------------------------------------------------------------------
  // The membership test of the source, as written.

  /** Property names every plain JavaScript object inherits from `Object.prototype`. */
  const ObjectPrototypeMembers: set<string> := {
    "constructor", "hasOwnProperty", "isPrototypeOf", "propertyIsEnumerable",
    "toLocaleString", "toString", "valueOf", "__proto__",
    "__defineGetter__", "__defineSetter__", "__lookupGetter__", "__lookupSetter__"
  }

  /** JavaScript's `key in memory` on an object literal: own keys and inherited ones. */
  predicate InAsWritten<V>(memory: map<string, V>, key: string)
  {
    key in memory || key in ObjectPrototypeMembers
  }

  /**
    As written, an explicit key such as "toString" counts as present in a
    freshly emptied memory, so the decorated method is never invoked and the
    call returns the inherited built-in function instead.
   */
  lemma InheritedKeyHitsEmptyMemory<V>(computed: V)
    ensures InAsWritten<V>(map[], "toString")
    ensures Call(New<V>(""), "toString", computed).Miss?
  {
  }

  /** Derived keys always contain '-', which no inherited member name does. */
  lemma DerivedKeyNeverInherited(className: string, methodName: string)
    ensures MemoKey(None, className, methodName) !in ObjectPrototypeMembers
  {
    var k := MemoKey(None, className, methodName);
    assert k[|className|] == '-';
    assert forall m :: m in ObjectPrototypeMembers ==> NoDash(m);
  }

  /** With the own-key test the model uses, an empty memory misses on every key. */
  lemma EmptyMemoryAlwaysMisses<V>(serviceId: string, key: string, computed: V)
    ensures Call(New<V>(serviceId), key, computed).Miss?
    ensures Call(New<V>(serviceId), key, computed).value == computed
  {
  }
}

=== FILE: state.dfy ===
/**
  The per-service state container (`State` in src/common/state.ts): the active
  service page, the memoisation memory and the elements injected into the host
  page. The state is an immutable record and every operation is a pure
  transition that takes the outcomes of the collaborators it awaits (a page's
  `unload` and `load`) as inputs and returns the new state, the side effects it
  caused, in order, and whether the returned promise fulfils or rejects.
 */
module ServiceState {
  import opened Wrappers

  /** A service page overlay; only the identity of the object matters here. */
  datatype Page = Page(id: nat)

  /** An element inserted into the host document. */
  datatype Elem = Elem(id: nat)

  /** Whatever value a rejected promise carries. */
  type Reason = string

  /** Side effects of the container and its page switches, in the order they happen. */
  datatype Event =
    | Remove(elem: Elem)                          // `el.remove()`
    | Unload(page: Page)                          // `page.unload()` is called
    | Activate(active: Option<Page>)              // `this.page = page`
    | Load(page: Page)                            // `page.load()` is called
    | LoadFailureLogged(page: Page, reason: Reason) // the `catch` that logs a failed load

  /**
    `memory` is the map object the container currently refers to; `retired`
    holds, by generation, the map objects `reload` replaced. They stay reachable
    from memo writes that were scheduled before the replacement.
   */
  datatype State<V> = State(
    serviceId: string,
    page: Option<Page>,
    memory: map<string, V>,
    retired: seq<map<string, V>>,
    injected: seq<Elem>)

  /** The result of one call: the state afterwards, what it did, and how its promise settles. */
  datatype Transition<V> = Transition(state: State<V>, trace: seq<Event>, outcome: Outcome<Reason>)

  /** A freshly constructed container: idle, nothing cached, nothing injected. */
  function New<V>(serviceId: string): (s: State<V>)
    ensures s.serviceId == serviceId
    ensures s.page == None
    ensures s.memory == map[] && s.retired == []
    ensures s.injected == []
  {
    State(serviceId, None, map[], [], [])
  }

  /** Records one more element as injected into the host page. */
  function Injected<V>(s: State<V>, el: Elem): (s': State<V>)
    ensures s'.injected == s.injected + [el]
    ensures s'.serviceId == s.serviceId && s'.page == s.page
    ensures s'.memory == s.memory && s'.retired == s.retired
  {
    s.(injected := s.injected + [el])
  }

  /** The `remove` calls made for the given elements: one per element, in order. */
  function Removals(els: seq<Elem>): (t: seq<Event>)
    ensures |t| == |els|
    ensures forall i :: 0 <= i < |els| ==> t[i] == Remove(els[i])
  {
    if els == [] then [] else [Remove(els[0])] + Removals(els[1..])
  }

  /** Removes every injected element from the document and forgets them. */
  function RemoveInjected<V>(s: State<V>): (t: Transition<V>)
    ensures t.outcome == Pass
    ensures t.state.injected == []
    ensures t.state.serviceId == s.serviceId && t.state.page == s.page
    ensures t.state.memory == s.memory && t.state.retired == s.retired
    ensures |t.trace| == |s.injected|
    ensures forall i :: 0 <= i < |s.injected| ==> t.trace[i] == Remove(s.injected[i])
  {
    Transition(s.(injected := []), Removals(s.injected), Pass)
  }

  /**
    `loadPage(page)`: unload the current page (if any) and wait for it; make
    `page` the current page; start `page.load()` without waiting, logging a
    failure instead of propagating it. A rejected `unload` makes the call
    reject before the page is replaced.
   */
  function LoadPage<V>(s: State<V>, page: Option<Page>, unload: Outcome<Reason>, load: Outcome<Reason>): (t: Transition<V>)
    ensures t.state.serviceId == s.serviceId && t.state.injected == s.injected
    ensures t.state.memory == s.memory && t.state.retired == s.retired
    // the old page is unloaded first
    ensures s.page.Some? ==> |t.trace| >= 1 && t.trace[0] == Unload(s.page.value)
    // a rejected unload aborts: old page kept, nothing loaded
    ensures s.page.Some? && unload.Fail? ==>
      t.outcome == Fail(unload.error) && t.state == s && t.trace == [Unload(s.page.value)]
    // otherwise the new page is active whatever its load does
    ensures s.page.None? || unload.Pass? ==> t.outcome == Pass && t.state.page == page
    ensures s.page.None? ==> |t.trace| >= 1 && t.trace[0] == Activate(page)
    ensures s.page.Some? && unload.Pass? ==> |t.trace| >= 2 && t.trace[1] == Activate(page)
    // load is started exactly when a page is given and the switch happened
    ensures forall p :: Load(p) in t.trace <==> (s.page.None? || unload.Pass?) && page == Some(p)
    ensures forall p, e :: LoadFailureLogged(p, e) in t.trace <==>
      (s.page.None? || unload.Pass?) && page == Some(p) && load == Fail(e)
    // and nothing else happens: unload, switch, load, failure log, in that order
    ensures var k := if s.page.Some? then 1 else 0;
      && |t.trace| == k + (if t.outcome.Pass? then
           1 + (if page.Some? then 1 else 0) + (if page.Some? && load.Fail? then 1 else 0) else 0)
      && (t.outcome.Pass? && page.Some? ==> t.trace[k + 1] == Load(page.value))
      && (t.outcome.Pass? && page.Some? && load.Fail? ==>
            t.trace[k + 2] == LoadFailureLogged(page.value, load.error))
  {
    var before := if s.page.Some? then [Unload(s.page.value)] else [];
    if s.page.Some? && unload.Fail? then
      Transition(s, before, Fail(unload.error))
    else
      var started := match page
        case None => []
        case Some(p) => [Load(p)] + (if load.Fail? then [LoadFailureLogged(p, load.error)] else []);
      Transition(s.(page := page), before + [Activate(page)] + started, Pass)
  }

  /**
    `reload()`: remove the injected elements, replace the memory map by a fresh
    one, then `loadPage(null)`. Only the unload of the old page can make it
    reject, and by then the first two steps have already happened.
   */
  function Reload<V>(s: State<V>, unload: Outcome<Reason>): (t: Transition<V>)
    ensures t.state.serviceId == s.serviceId
    ensures t.state.injected == [] && t.state.memory == map[]
    ensures t.state.retired == s.retired + [s.memory]
    ensures t.outcome.Fail? <==> s.page.Some? && unload.Fail?
    ensures t.outcome.Pass? ==> t.state.page == None
    ensures t.outcome.Fail? ==> t.state.page == s.page
    ensures t.outcome.Fail? ==> t.outcome == Fail(unload.error)
    // every removal precedes the unload of the old page
    ensures |t.trace| >= |s.injected|
    ensures forall i :: 0 <= i < |s.injected| ==> t.trace[i] == Remove(s.injected[i])
    ensures s.page.Some? ==> |t.trace| > |s.injected| && t.trace[|s.injected|] == Unload(s.page.value)
    // and then only the switch to no page
    ensures |t.trace| == |s.injected| + (if s.page.Some? then 1 else 0) + (if t.outcome.Pass? then 1 else 0)
    ensures t.outcome.Pass? ==> t.trace[|t.trace| - 1] == Activate(None)
    ensures forall p :: Load(p) !in t.trace
  {
    var removed := RemoveInjected(s);
    var cleared := removed.state.(memory := map[], retired := s.retired + [s.memory]);
    var switched := LoadPage(cleared, None, unload, Pass);
    Transition(switched.state, removed.trace + switched.trace, switched.outcome)
  }

  /** Each tracked element is removed exactly as many times as it was injected. */
  lemma {:induction false} RemovalsCountMatches(els: seq<Elem>, e: Elem)
    ensures multiset(Removals(els))[Remove(e)] == multiset(els)[e]
  {
    if els != [] {
      RemovalsCountMatches(els[1..], e);
      assert els == [els[0]] + els[1..];
      assert Removals(els) == [Remove(els[0])] + Removals(els[1..]);
    }
  }

  /** A second `removeInjected` does nothing: no removal, same state. */
  lemma RemoveInjectedIdempotent<V>(s: State<V>)
    ensures RemoveInjected(RemoveInjected(s).state).state == RemoveInjected(s).state
    ensures RemoveInjected(RemoveInjected(s).state).trace == []
  {
  }

  /** An element injected last is removed last, after all the earlier ones. */
  lemma InjectedThenRemoved<V>(s: State<V>, el: Elem)
    ensures RemoveInjected(Injected(s, el)).trace == RemoveInjected(s).trace + [Remove(el)]
  {
  }
}

=== FILE: wrappers.dfy ===
/** Failure-carrying datatypes shared by the rest of the model. */
module Wrappers {

  /** A value that may be absent: JavaScript's `null`/`undefined` versus a present value. */
  datatype Option<+T> = None | Some(value: T)

  /** The settled state of a promise that yields a value: fulfilled or rejected. */
  datatype Result<+R, +E> = Success(value: R) | Failure(error: E)

  /** The settled state of a promise that yields nothing of interest. */
  datatype Outcome<+E> = Pass | Fail(error: E)
}
